=== FILE: README.md ===
# PrivatBank USD rates: parser and message formatter

A Dafny model of the pure data path of `lib/privat.py`, the module that turns
PrivatBank's public exchange-rate answers into a chat message:

- `parse_privat_jsons` keeps the endpoint answers with status 200 and a
  non-empty `result`, decodes each `result` (a Python list literal of currency
  dictionaries) with `ast.literal_eval`, and takes the first record whose `ccy`
  is `"USD"` from each decoded list, in input order.
- `create_privat_currency_message` returns `"Haven't data..."` for anything that
  is not a list. Otherwise it reads `buy` and `sale` from position 0 (retail)
  and position 1 (business) and fills them into one of two fixed templates:
  plain text, or the image variant with every line break doubled.

Modules:

- `Results` (`results.dfy`): `Option`, and a `Result` usable with `:-`. `Result`
  stands for the exceptions the Python code lets escape.
- `Records` (`records.dfy`): `CurrencyRecord`, `RawResponse`, the `USD` and
  `200` constants, and the filter predicate `Keep`. Each dictionary key is an
  `Option` because the code reads some keys with `.get` and others with `[...]`.
- `Parser` (`parser.dfy`): the three passes of the parser, each with its own
  contract, plus the whole function `ParsePrivatJsons`. `ast.literal_eval` is a
  parameter `decode: string -> Option<seq<CurrencyRecord>>`, where `None` means
  it raised.
- `Text` (`text.dfy`): line-level views of strings. It can join lines with a
  terminator, double every line break and read lines back. The templates are
  stated against these.
- `Formatter` (`formatter.dfy`): the guard, the four reads, the two templates,
  and `CurrencyMessage`.
- `Pipeline` (`pipeline.dfy`): the parser's output fed to the formatter, for two
  endpoints.

Errors are values, not preconditions:

- `ParseError.LiteralEvalError(k)`: `literal_eval` raised on the k-th kept
  payload.
- `ParseError.NoUsdRecord(k)`: the k-th decoded list has no USD record, so
  `[0]` raised `IndexError`.
- `FormatError.IndexOutOfRange(i)`: the list is too short for index `i`.
- `FormatError.MissingKey(i, key)`: record `i` has no `buy` or no `sale`.

Each error is the one Python raises first. For example, every payload is decoded
before any USD record is selected, so a decode failure anywhere wins over a
missing USD record earlier in the list.

Two consequences of the code that the model keeps:

- Plain mode puts one blank line between the retail and business blocks
  (`"\n"`, lib/privat.py:62). `QuoteLines` keeps it.
- With a single surviving record that carries `buy` and `sale`, the formatter
  raises `IndexError` at index 1 (lib/privat.py:55) before it builds any
  message; `Pipeline.OneEndpointDropped` proves this. If that record lacks
  `buy` or `sale`, the read at line 53 or 54 raises `KeyError` first, as
  `Formatter.ReadQuote` states.

## Model

| member | source | states |
|---|---|---|
| Records.Keep | lib/privat.py:30 | the filter condition: `result` present and a non-empty string, and `status` exactly 200; `KeptPayloadsIsOrderedSelection` characterises what it keeps |
| Records.IsUsd | lib/privat.py:34 | the selection test `currency.get("ccy") == "USD"`, false when `ccy` is absent; `SelectUsdIsFirstMatch` characterises what it selects |
| Parser.KeptPayloads | lib/privat.py:30 | the filter never yields more payloads than there are responses, and every payload it keeps is a non-empty string |
| Parser.KeptPayloadsIsOrderedSelection | lib/privat.py:30 | the kept payloads are exactly the `result`s of the responses with a non-empty result and status 200, in ascending input positions: no reordering, no duplicates, and no kept response lost |
| Parser.KeptPayloadsAppend | lib/privat.py:30 | filtering a concatenation is the concatenation of the filtered parts, so relative order is preserved |
| Parser.KeptPayloadsAllKept | lib/privat.py:30 | when every response passes the filter, the output has the same length and payload i comes from response i |
| Parser.DecodeAll | lib/privat.py:32 | every payload is decoded in order; it succeeds exactly when every decode succeeds, and on failure it names the first payload whose decode raised |
| Parser.UsdRecords | lib/privat.py:34 | the comprehension yields only USD records drawn from the list and keeps every USD record of the list; it is non-empty exactly when the list holds a USD record, and then its first element is the record at the first USD position |
| Parser.SelectUsd | lib/privat.py:34 | taking `[0]` gives a USD record of the list, and it fails (IndexError) exactly when the list holds no USD record |
| Parser.FirstUsdIndex | lib/privat.py:34 | reference search: the position of the first USD record, with no USD record before it, or none when the list has no USD record at all |
| Parser.SelectUsdIsFirstMatch | lib/privat.py:34 | filter-then-`[0]` selects exactly the record at the first USD position, and fails exactly when there is none |
| Parser.SelectUsdIgnoresSuffix | lib/privat.py:34 | once a list holds a USD record, records appended after it never change the selection, so later USD records are ignored |
| Parser.SelectAll | lib/privat.py:34 | one selected record per decoded list, in order; it succeeds exactly when every list holds a USD record, else it names the first list without one |
| Parser.SelectedAreFirstMatches | lib/privat.py:34 | every record the selection pass returns is the first USD record of its list |
| Parser.ParsePrivatJsons | lib/privat.py:19-35 | on success, one record per kept response, each the first USD record of its decoded payload; success exactly when every kept payload decodes to a list holding a USD record; a decode failure is reported for the first failing payload, and a missing USD record only when all payloads decoded |
| Formatter.Lookup | lib/privat.py:53-56 | `currency[i][key]` succeeds exactly when `i` is in range and the key is present, and then yields the stored value; it raises IndexError when `i` is past the end and KeyError when the key is absent |
| Formatter.ReadQuote | lib/privat.py:53-56 | the four reads succeed exactly when positions 0 and 1 both carry `buy` and `sale`, and then yield those four values; otherwise the error is that of the first failing read in the order 0/buy, 0/sale, 1/buy, 1/sale: IndexError at 0 for an empty list, IndexError at 1 for a one-element list with both keys, and KeyError naming the position and key for each missing key |
| Formatter.PlainText | lib/privat.py:59-65 | the plain template, written piece by piece as the f-string spells it; `PlainTextLines` characterises it as seven lines each ended by one break |
| Formatter.ImageText | lib/privat.py:68-74 | the image template, written piece by piece as the f-string spells it; `ImageTextLines` characterises it as the same seven lines each ended by two breaks |
| Formatter.PlainTextLines | lib/privat.py:58-66 | the plain template is seven lines (Retail, BUY, SELL, blank, Business, BUY, SELL), each ended by one line break |
| Formatter.ImageTextLines | lib/privat.py:67-75 | the image template is the same seven lines, each ended by two line breaks |
| Formatter.CurrencyMessage | lib/privat.py:38-75 | non-list input gives exactly `"Haven't data..."` whatever the flag; a list gives a message exactly when its first two records carry `buy` and `sale`, and the message is their seven lines with the flag choosing only the break; otherwise the first read's error |
| Formatter.MessageReadsOnlyFirstTwo | lib/privat.py:53-56 | lists that agree on `buy` and `sale` at positions 0 and 1 give the same message, whatever else they hold |
| Formatter.ImageIsDoubledPlain | lib/privat.py:58-75 | with single-line values, the image text is the plain text with every line break doubled |
| Formatter.QuoteLinesSingleLine | lib/privat.py:58-66 | single-line values give template lines without line breaks |
| Formatter.PlainTextRoundTrip | lib/privat.py:58-66 | with single-line values, reading the plain message back yields exactly the four strings it was built from, so they appear verbatim in reading order |
| Pipeline.BothEndpointsAnswer | lib/privat.py:30-35 | two answering endpoints whose lists hold a USD record give exactly two records, retail then business |
| Pipeline.OneEndpointDropped | lib/privat.py:30-56 | when exactly one endpoint fails the filter, and the surviving payload decodes to a list holding a USD record that carries `buy` and `sale`, the parser yields one record and the formatter then fails with IndexError at position 1 in either mode |
| Pipeline.DocstringExample | lib/privat.py:19-66 | for the docstrings' example payloads and rates, parsing and plain formatting give the lines `BUY USD: 26.85000 UAH`, `SELL USD: 27.25000 UAH`, `BUY USD: 26.90000 UAH` and `SELL USD: 27.24796 UAH`, in that order |

## Left out

- `get_jsons_privat` (lib/privat.py:14-16): network I/O through `get_json_from_web` and concurrency through `asyncio.gather`. Its output is the `seq<RawResponse>` the parser takes.
- `create_privat_image` (lib/privat.py:78-108): image loading, font loading, drawing and the file save with its single create-directory retry. All of it is calls into PIL and the filesystem. `create_dir` and `get_json_from_web` (`lib/help_functions.py`) are not part of this model.
- The internals of `ast.literal_eval`: the model takes it as the `decode` parameter. The model also assumes a successful decode yields a list of dictionaries. A payload that decodes to some other value (a dict, a number) would raise later in the Python code, and the model does not represent that.
- Dictionary values other than strings, and a status that is not an `int` (Python would compare `200.0 == 200` as true). Record fields are `Option<string>` and the status is `Option<int>`.
- Records that are not dictionaries inside the formatter's list: they would raise `TypeError` on `["buy"]`.
- The URL constants and `__all__` (lib/privat.py:9-11, 110-114): configuration, with no behaviour.
- The default `text_for_image=False` (lib/privat.py:38): Dafny has no default arguments here, so a call that omits the flag is `CurrencyMessage(input, false)`.
- `async`: neither the parser nor the formatter suspends, so both are plain functions.
- Parser.ParsePrivatJsons: it returns `NoUsdRecord` as an error value instead of requiring that every kept list holds a USD record. This is stronger than a precondition. `ParsePrivatJsons` states that it succeeds exactly when that condition holds.

=== FILE: formatter.dfy ===
/** `create_privat_currency_message`: renders the retail quote (list position 0)
    and the business quote (list position 1) into one of two fixed templates.
    The templates hold the same seven lines; plain text ends each with one
    line break, image text with two. */
module Formatter {
  import opened Results
  import opened Records
  import opened Text

  /** The argument as the `isinstance(currency, list)` guard sees it. */
  datatype FormatterInput = NotAList | AList(items: seq<CurrencyRecord>)

  /** The two dictionary keys the formatter reads with `[...]`. */
  datatype Key = Buy | Sale

  /** The exceptions the formatter lets escape: IndexError on a short list,
      KeyError on a record without `buy` or `sale`. */
  datatype FormatError = IndexOutOfRange(index: nat) | MissingKey(index: nat, key: Key)

  /** The four values the templates show, in reading order. */
  datatype Quote = Quote(retailBuy: string, retailSell: string, businessBuy: string, businessSell: string)

  /** Returned instead of a message when the argument is not a list. */
  const Fallback: string := "Haven't data..."

  function Get(c: CurrencyRecord, key: Key): Option<string> {
    match key
    case Buy => c.buy
    case Sale => c.sale
  }

  /** `currency[i][key]` */
  function Lookup(items: seq<CurrencyRecord>, i: nat, key: Key): (r: Result<string, FormatError>)
    ensures r.Success? <==> i < |items| && Get(items[i], key).Some?
    ensures r.Success? ==> Get(items[i], key) == Some(r.value)
    ensures i >= |items| ==> r == Failure(IndexOutOfRange(i))
    ensures i < |items| && Get(items[i], key).None? ==> r == Failure(MissingKey(i, key))
  {
    if i >= |items| then Failure(IndexOutOfRange(i))
    else match Get(items[i], key)
      case None => Failure(MissingKey(i, key))
      case Some(v) => Success(v)
  }

  /** All four values the templates need are there. */
  predicate Complete(items: seq<CurrencyRecord>) {
    |items| >= 2 && items[0].buy.Some? && items[0].sale.Some? && items[1].buy.Some? && items[1].sale.Some?
  }

  /** The four reads `currency[0]["buy"]` … `currency[1]["sale"]`, in the order the Python code performs them. Only positions 0
      and 1 and only their `buy` and `sale` keys are consulted. */
  function ReadQuote(items: seq<CurrencyRecord>): (r: Result<Quote, FormatError>)
    ensures r.Success? <==> Complete(items)
    ensures r.Success? ==>
      r.value == Quote(items[0].buy.value, items[0].sale.value, items[1].buy.value, items[1].sale.value)
    ensures |items| == 0 ==> r == Failure(IndexOutOfRange(0))
    ensures |items| == 1 && items[0].buy.Some? && items[0].sale.Some? ==> r == Failure(IndexOutOfRange(1))
    // the first read that fails decides the error, in the order 0/buy, 0/sale, 1/buy, 1/sale
    ensures |items| >= 1 && items[0].buy.None? ==> r == Failure(MissingKey(0, Buy))
    ensures |items| >= 1 && items[0].buy.Some? && items[0].sale.None? ==> r == Failure(MissingKey(0, Sale))
    ensures |items| >= 2 && items[0].buy.Some? && items[0].sale.Some? && items[1].buy.None?
      ==> r == Failure(MissingKey(1, Buy))
    ensures |items| >= 2 && items[0].buy.Some? && items[0].sale.Some? && items[1].buy.Some? && items[1].sale.None?
      ==> r == Failure(MissingKey(1, Sale))
  {
    var retailBuy :- Lookup(items, 0, Buy);
    var retailSell :- Lookup(items, 0, Sale);
    var businessBuy :- Lookup(items, 1, Buy);
    var businessSell :- Lookup(items, 1, Sale);
    Success(Quote(retailBuy, retailSell, businessBuy, businessSell))
  }

  /** The template written for chat text, one piece per line of the f-string in `lib/privat.py`. */
  function PlainText(q: Quote): string {
    ("Retail:\n")
    + ("BUY USD: " + q.retailBuy + " UAH\n")
    + ("SELL USD: " + q.retailSell + " UAH\n")
    + ("\n")
    + ("Business:\n")
    + ("BUY USD: " + q.businessBuy + " UAH\n")
    + ("SELL USD: " + q.businessSell + " UAH\n")
  }

  /** The template written for drawing on the image, one piece per line of the f-string in `lib/privat.py`. */
  function ImageText(q: Quote): string {
    ("Retail:\n\n")
    + ("BUY USD: " + q.retailBuy + " UAH\n\n")
    + ("SELL USD: " + q.retailSell + " UAH\n\n")
    + ("\n\n")
    + ("Business:\n\n")
    + ("BUY USD: " + q.businessBuy + " UAH\n\n")
    + ("SELL USD: " + q.businessSell + " UAH\n\n")
  }

  const BuyLabel: string := "BUY USD: "
  const SellLabel: string := "SELL USD: "
  const Unit: string := " UAH"

  /** The seven lines both templates show: a labelled retail block, a blank
      line, a labelled business block. */
  function QuoteLines(q: Quote): (lines: seq<string>)
    ensures |lines| == 7
  {
    [ "Retail:",
      BuyLabel + q.retailBuy + Unit,
      SellLabel + q.retailSell + Unit,
      "",
      "Business:",
      BuyLabel + q.businessBuy + Unit,
      SellLabel + q.businessSell + Unit ]
  }

  /** None of the four values holds a line break. */
  predicate SingleLine(q: Quote) {
    NoNewline(q.retailBuy) && NoNewline(q.retailSell) && NoNewline(q.businessBuy) && NoNewline(q.businessSell)
  }

  /** A labelled value line of a template, split into its line and its break. */
  lemma ValuePiece(tag: string, v: string, tail: string, sep: string)
    requires tail == Unit + sep
    ensures tag + v + tail == (tag + v + Unit) + sep
  {
  }

  /** The literal pieces of the plain template, split into line and break. */
  lemma PlainLiterals()
    ensures "Retail:\n" == "Retail:" + "\n" && "Business:\n" == "Business:" + "\n"
    ensures "\n" == "" + "\n" && " UAH\n" == Unit + "\n"
  {
  }

  /** The literal pieces of the image template, split into line and break. */
  lemma ImageLiterals()
    ensures "Retail:\n\n" == "Retail:" + "\n\n" && "Business:\n\n" == "Business:" + "\n\n"
    ensures "\n\n" == "" + "\n\n" && " UAH\n\n" == Unit + "\n\n"
  {
  }

  /** The plain template is the seven lines, each ended by one line break. */
  lemma PlainTextLines(q: Quote)
    ensures PlainText(q) == Terminated(QuoteLines(q), "\n")
  {
    var ls := QuoteLines(q);
    calc {
      PlainText(q);
    == { PlainLiterals();
         ValuePiece(BuyLabel, q.retailBuy, " UAH\n", "\n");
         ValuePiece(SellLabel, q.retailSell, " UAH\n", "\n");
         ValuePiece(BuyLabel, q.businessBuy, " UAH\n", "\n");
         ValuePiece(SellLabel, q.businessSell, " UAH\n", "\n"); }
      (ls[0] + "\n") + (ls[1] + "\n") + (ls[2] + "\n") + (ls[3] + "\n") + (ls[4] + "\n") + (ls[5] + "\n") + (ls[6] + "\n");
    == { AppendRightNested(ls[0] + "\n", ls[1] + "\n", ls[2] + "\n", ls[3] + "\n", ls[4] + "\n", ls[5] + "\n", ls[6] + "\n"); }
      (ls[0] + "\n") + ((ls[1] + "\n") + ((ls[2] + "\n") + ((ls[3] + "\n") + ((ls[4] + "\n") + ((ls[5] + "\n") + (ls[6] + "\n"))))));
    == { TemplateLines(ls, "\n"); }
      Terminated(ls, "\n");
    }
  }

  /** The image template is the seven lines, each ended by two line breaks. */
  lemma ImageTextLines(q: Quote)
    ensures ImageText(q) == Terminated(QuoteLines(q), "\n\n")
  {
    var ls := QuoteLines(q);
    calc {
      ImageText(q);
    == { ImageLiterals();
         ValuePiece(BuyLabel, q.retailBuy, " UAH\n\n", "\n\n");
         ValuePiece(SellLabel, q.retailSell, " UAH\n\n", "\n\n");
         ValuePiece(BuyLabel, q.businessBuy, " UAH\n\n", "\n\n");
         ValuePiece(SellLabel, q.businessSell, " UAH\n\n", "\n\n"); }
      (ls[0] + "\n\n") + (ls[1] + "\n\n") + (ls[2] + "\n\n") + (ls[3] + "\n\n") + (ls[4] + "\n\n") + (ls[5] + "\n\n") + (ls[6] + "\n\n");
    == { AppendRightNested(ls[0] + "\n\n", ls[1] + "\n\n", ls[2] + "\n\n", ls[3] + "\n\n", ls[4] + "\n\n", ls[5] + "\n\n", ls[6] + "\n\n"); }
      (ls[0] + "\n\n") + ((ls[1] + "\n\n") + ((ls[2] + "\n\n") + ((ls[3] + "\n\n") + ((ls[4] + "\n\n") + ((ls[5] + "\n\n") + (ls[6] + "\n\n"))))));
    == { TemplateLines(ls, "\n\n"); }
      Terminated(ls, "\n\n");
    }
  }

  /** Seven terminated lines, written out. */
  lemma TemplateLines(ls: seq<string>, sep: string)
    requires |ls| == 7
    ensures Terminated(ls, sep)
      == (ls[0] + sep) + ((ls[1] + sep) + ((ls[2] + sep) + ((ls[3] + sep) + ((ls[4] + sep) + ((ls[5] + sep) + (ls[6] + sep))))))
  {
    TerminatedStep(ls, 0, sep);
    TerminatedStep(ls, 1, sep);
    TerminatedStep(ls, 2, sep);
    TerminatedStep(ls, 3, sep);
    TerminatedStep(ls, 4, sep);
    TerminatedStep(ls, 5, sep);
    TerminatedStep(ls, 6, sep);
    assert ls[7..] == [];
    assert ls[0..] == ls;
    assert (ls[6] + sep) + "" == ls[6] + sep;
  }

  /** `create_privat_currency_message(currency, text_for_image)`. */
  function CurrencyMessage(input: FormatterInput, textForImage: bool): (r: Result<string, FormatError>)
    // the guard: anything that is not a list gets the fallback, whatever the flag
    ensures input.NotAList? ==> r == Success(Fallback)
    // a list yields a message exactly when positions 0 and 1 both carry buy and sale
    ensures input.AList? ==> (r.Success? <==> Complete(input.items))
    // the message is the seven lines of the first two records, with the flag choosing only the break
    ensures input.AList? && r.Success? ==>
      var items := input.items;
      r.value == Terminated(
        QuoteLines(Quote(items[0].buy.value, items[0].sale.value, items[1].buy.value, items[1].sale.value)),
        if textForImage then "\n\n" else "\n")
    ensures input.AList? && r.Failure? ==> r == ReadQuote(input.items).PropagateFailure()
  {
    match input
    case NotAList => Success(Fallback)
    case AList(items) =>
      match ReadQuote(items)
      case Failure(e) => Failure(e)
      case Success(q) =>
        if !textForImage then
          PlainTextLines(q);
          Success(PlainText(q))
        else
          ImageTextLines(q);
          Success(ImageText(q))
  }

  /** Only the `buy` and `sale` of positions 0 and 1 reach the output: lists
      that agree on those four values give the same message, whatever else
      they hold. */
  lemma MessageReadsOnlyFirstTwo(items: seq<CurrencyRecord>, other: seq<CurrencyRecord>, textForImage: bool)
    requires |items| >= 2 && |other| >= 2
    requires forall i :: 0 <= i < 2 ==> items[i].buy == other[i].buy && items[i].sale == other[i].sale
    ensures CurrencyMessage(AList(items), textForImage) == CurrencyMessage(AList(other), textForImage)
  {
  }

  /** With single-line values, the image text is the plain text with every line
      break doubled: the flag changes spacing only, never content. */
  lemma ImageIsDoubledPlain(q: Quote)
    requires SingleLine(q)
    ensures ImageText(q) == DoubleNewlines(PlainText(q))
  {
    var ls := QuoteLines(q);
    PlainTextLines(q);
    ImageTextLines(q);
    QuoteLinesSingleLine(q);
    DoubleNewlinesTerminated(ls);
  }

  /** Single-line values make single-line template lines. */
  lemma QuoteLinesSingleLine(q: Quote)
    requires SingleLine(q)
    ensures forall k :: 0 <= k < |QuoteLines(q)| ==> NoNewline(QuoteLines(q)[k])
  {
  }

  /** Reads the four values back out of a plain message: the inverse of
      `PlainText` on single-line values. */
  function ParsePlainText(text: string): Option<Quote> {
    var ls := ReadLines(text);
    if |ls| == 7 && ls[0] == "Retail:" && ls[3] == "" && ls[4] == "Business:" then
      match (Unwrap(ls[1], BuyLabel, Unit), Unwrap(ls[2], SellLabel, Unit),
             Unwrap(ls[5], BuyLabel, Unit), Unwrap(ls[6], SellLabel, Unit))
      case (Some(rb), Some(rs), Some(bb), Some(bs)) => Some(Quote(rb, rs, bb, bs))
      case _ => None
    else None
  }

  /** The plain message carries each value verbatim: reading it back yields
      the very four strings it was built from. */
  lemma PlainTextRoundTrip(q: Quote)
    requires SingleLine(q)
    ensures ParsePlainText(PlainText(q)) == Some(q)
  {
    var ls := QuoteLines(q);
    PlainTextLines(q);
    QuoteLinesSingleLine(q);
    ReadLinesTerminated(ls);
    UnwrapWrapped(BuyLabel, q.retailBuy, Unit);
    UnwrapWrapped(SellLabel, q.retailSell, Unit);
    UnwrapWrapped(BuyLabel, q.businessBuy, Unit);
    UnwrapWrapped(SellLabel, q.businessSell, Unit);
  }
}

=== FILE: parser.dfy ===
/** `parse_privat_jsons`: turns the fetched endpoint bodies into the USD record of
    each successful endpoint, in the three passes over the list that `parse_privat_jsons` makes:
    keep the successful bodies, decode every kept payload, then pick the USD
    record out of every decoded list. */
module Parser {
  import opened Results
  import opened Records

  /** `ast.literal_eval` on one payload, as seen by this code: either the list of
      currency dictionaries the payload spells out, or `None` when it raises. */
  type Decoder = string -> Option<seq<CurrencyRecord>>

  /** The two exceptions the parser lets escape. `position` counts kept
      responses only, i.e. it indexes `KeptPayloads(raw)`. */
  datatype ParseError =
    | LiteralEvalError(position: nat)  // literal_eval raised on that payload
    | NoUsdRecord(position: nat)       // that decoded list has no USD record, so `[0]` raised IndexError

  // ---------------------------------------------------------------- step 1

  /** Position 0, if the filter keeps the first response. */
  function Head(r0: RawResponse): seq<nat> {
    if Keep(r0) then [0] else []
  }

  /** The payload the filter keeps from the first response, if it keeps it. */
  function HeadPayload(r0: RawResponse): seq<string> {
    if Keep(r0) then [r0.result.value] else []
  }

  /** The `result` strings of the kept responses, in input order. */
  function KeptPayloads(raw: seq<RawResponse>): (r: seq<string>)
    ensures |r| <= |raw|
    ensures forall k :: 0 <= k < |r| ==> |r[k]| > 0
  {
    if |raw| == 0 then []
    else HeadPayload(raw[0]) + KeptPayloads(raw[1..])
  }

  /** Each `idx[k]` is a kept response of `raw` whose payload is `out[k]`. */
  predicate Sourced(raw: seq<RawResponse>, out: seq<string>, idx: seq<nat>) {
    && |idx| == |out|
    && forall k :: 0 <= k < |idx| ==> idx[k] < |raw| && Keep(raw[idx[k]]) && raw[idx[k]].result.value == out[k]
  }

  /** Strictly increasing: no reordering and no duplication. */
  predicate Ascending(idx: seq<nat>) {
    forall k, l :: 0 <= k < l < |idx| ==> idx[k] < idx[l]
  }

  /** Every kept response of `raw` appears. */
  predicate Exhaustive(raw: seq<RawResponse>, idx: seq<nat>) {
    forall i :: 0 <= i < |raw| && Keep(raw[i]) ==> i in idx
  }

  /** `out` is what `raw` looks like after filtering, and `idx` says where each
      element came from: ascending positions (so no reordering and no
      duplication), each a kept response whose payload is that element, and
      every kept response among them (so nothing kept is lost). */
  predicate IsOrderedSelection(raw: seq<RawResponse>, out: seq<string>, idx: seq<nat>) {
    Sourced(raw, out, idx) && Ascending(idx) && Exhaustive(raw, idx)
  }

  /** Every position moved one place right, as when a response is put in front. */
  function ShiftUp(idx: seq<nat>): (r: seq<nat>)
    ensures |r| == |idx|
    ensures forall k :: 0 <= k < |r| ==> r[k] == idx[k] + 1
  {
    seq(|idx|, k requires 0 <= k < |idx| => idx[k] + 1)
  }

  /** The input positions the filter keeps, ascending. */
  function KeptIndices(raw: seq<RawResponse>): (idx: seq<nat>)
    ensures |idx| <= |raw|
  {
    if |raw| == 0 then []
    else Head(raw[0]) + ShiftUp(KeptIndices(raw[1..]))
  }

  lemma SourcedCons(r0: RawResponse, tail: seq<RawResponse>, out: seq<string>, idx: seq<nat>)
    requires Sourced(tail, out, idx)
    ensures Sourced([r0] + tail, HeadPayload(r0) + out, Head(r0) + ShiftUp(idx))
  {
  }

  lemma AscendingCons(r0: RawResponse, idx: seq<nat>)
    requires Ascending(idx)
    ensures Ascending(Head(r0) + ShiftUp(idx))
  {
  }

  lemma ExhaustiveCons(r0: RawResponse, tail: seq<RawResponse>, idx: seq<nat>)
    requires Exhaustive(tail, idx)
    ensures Exhaustive([r0] + tail, Head(r0) + ShiftUp(idx))
  {
  }

  /** The filter keeps exactly the successful responses, in input order, each
      once: `KeptIndices` witnesses that `KeptPayloads` is their ordered selection. */
  lemma {:induction false} KeptPayloadsIsOrderedSelection(raw: seq<RawResponse>)
    ensures IsOrderedSelection(raw, KeptPayloads(raw), KeptIndices(raw))
  {
    if |raw| > 0 {
      var tail := raw[1..];
      KeptPayloadsIsOrderedSelection(tail);
      SourcedCons(raw[0], tail, KeptPayloads(tail), KeptIndices(tail));
      AscendingCons(raw[0], KeptIndices(tail));
      ExhaustiveCons(raw[0], tail, KeptIndices(tail));
      assert [raw[0]] + tail == raw;
    }
  }

  /** Filtering distributes over concatenation. */
  lemma {:induction false} KeptPayloadsAppend(a: seq<RawResponse>, b: seq<RawResponse>)
    ensures KeptPayloads(a + b) == KeptPayloads(a) + KeptPayloads(b)
  {
    if |a| == 0 {
      assert a + b == b;
    } else {
      assert (a + b)[1..] == a[1..] + b;
      KeptPayloadsAppend(a[1..], b);
    }
  }

  /** When every response passes the filter, payload i comes from response i. */
  lemma {:induction false} KeptPayloadsAllKept(raw: seq<RawResponse>)
    requires forall i :: 0 <= i < |raw| ==> Keep(raw[i])
    ensures |KeptPayloads(raw)| == |raw|
    ensures forall i :: 0 <= i < |raw| ==> raw[i].result == Some(KeptPayloads(raw)[i])
  {
    if |raw| > 0 {
      KeptPayloadsAllKept(raw[1..]);
    }
  }

  // ---------------------------------------------------------------- step 2

  /** `[ast.literal_eval(row) for row in payloads]`: decodes every payload in
      order, or reports the first one that raises. */
  function DecodeAll(payloads: seq<string>, decode: Decoder): (r: Result<seq<seq<CurrencyRecord>>, nat>)
    ensures r.Success? ==> |r.value| == |payloads|
    ensures r.Success? ==> forall k :: 0 <= k < |payloads| ==> decode(payloads[k]) == Some(r.value[k])
    ensures r.Success? <==> forall k :: 0 <= k < |payloads| ==> decode(payloads[k]).Some?
    ensures r.Failure? ==> r.error < |payloads| && decode(payloads[r.error]).None?
    ensures r.Failure? ==> forall j :: 0 <= j < r.error ==> decode(payloads[j]).Some?
  {
    if |payloads| == 0 then Success([])
    else
      match decode(payloads[0])
      case None => Failure(0)
      case Some(first) =>
        match DecodeAll(payloads[1..], decode)
        case Failure(k) => Failure(k + 1)
        case Success(rest) => Success([first] + rest)
  }

  // ---------------------------------------------------------------- step 3

  /** There is a record with `ccy == "USD"` in the list. */
  predicate HasUsd(row: seq<CurrencyRecord>) {
    exists i :: 0 <= i < |row| && IsUsd(row[i])
  }

  /** `[currency for currency in row if currency.get("ccy") == "USD"]` */
  function UsdRecords(row: seq<CurrencyRecord>): (r: seq<CurrencyRecord>)
    ensures |r| <= |row|
    ensures forall k :: 0 <= k < |r| ==> IsUsd(r[k]) && r[k] in row
    ensures |r| > 0 <==> HasUsd(row)
    ensures forall i :: 0 <= i < |row| && IsUsd(row[i]) ==> row[i] in r
    ensures |r| > 0 ==> FirstUsdIndex(row).Some? && r[0] == row[FirstUsdIndex(row).value]
  {
    if |row| == 0 then []
    else
      var rest := UsdRecords(row[1..]);
      assert HasUsd(row) <==> IsUsd(row[0]) || HasUsd(row[1..]) by {
        if HasUsd(row[1..]) {
          var i :| 0 <= i < |row[1..]| && IsUsd(row[1..][i]);
          assert IsUsd(row[i + 1]);
        }
        if HasUsd(row) && !IsUsd(row[0]) {
          var i :| 0 <= i < |row| && IsUsd(row[i]);
          assert IsUsd(row[1..][i - 1]);
        }
      }
      (if IsUsd(row[0]) then [row[0]] else []) + rest
  }

  /** `UsdRecords(row)[0]`: the USD record `parse_privat_jsons` picks, or `None` when the
      index raises IndexError. */
  function SelectUsd(row: seq<CurrencyRecord>): (r: Option<CurrencyRecord>)
    ensures r.Some? ==> IsUsd(r.value) && r.value in row
    ensures r.None? <==> !HasUsd(row)
  {
    var usd := UsdRecords(row);
    if |usd| == 0 then None else Some(usd[0])
  }

  /** Reference definition of "the first USD record": a left-to-right search
      that stops at the first match. */
  function FirstUsdIndex(row: seq<CurrencyRecord>): (r: Option<nat>)
    ensures r.Some? ==> r.value < |row| && IsUsd(row[r.value])
    ensures r.Some? ==> forall j :: 0 <= j < r.value ==> !IsUsd(row[j])
    ensures r.None? ==> forall j :: 0 <= j < |row| ==> !IsUsd(row[j])
  {
    if |row| == 0 then None
    else if IsUsd(row[0]) then Some(0)
    else
      match FirstUsdIndex(row[1..])
      case None => None
      case Some(i) => Some(i + 1)
  }

  /** Filtering then indexing picks exactly the first match of the search:
      later USD records never win. */
  lemma SelectUsdIsFirstMatch(row: seq<CurrencyRecord>)
    ensures FirstUsdIndex(row).None? ==> SelectUsd(row).None?
    ensures FirstUsdIndex(row).Some? ==> SelectUsd(row) == Some(row[FirstUsdIndex(row).value])
  {
  }


  /** Appending records after a list that already holds a USD record does not
      change which record is selected. */
  lemma {:induction false} SelectUsdIgnoresSuffix(row: seq<CurrencyRecord>, more: seq<CurrencyRecord>)
    requires HasUsd(row)
    ensures SelectUsd(row + more) == SelectUsd(row)
  {
    assert (row + more)[0] == row[0];
    if !IsUsd(row[0]) {
      var i :| 0 <= i < |row| && IsUsd(row[i]);
      assert IsUsd(row[1..][i - 1]);
      assert (row + more)[1..] == row[1..] + more;
      SelectUsdIgnoresSuffix(row[1..], more);
    }
  }

  /** `[... [0] for row in lists]`: selects the USD record of every list in
      order, or reports the first list that has none. */
  function SelectAll(lists: seq<seq<CurrencyRecord>>): (r: Result<seq<CurrencyRecord>, nat>)
    ensures r.Success? ==> |r.value| == |lists|
    ensures r.Success? ==> forall k :: 0 <= k < |lists| ==> SelectUsd(lists[k]) == Some(r.value[k])
    ensures r.Success? <==> forall k :: 0 <= k < |lists| ==> HasUsd(lists[k])
    ensures r.Failure? ==> r.error < |lists| && !HasUsd(lists[r.error])
    ensures r.Failure? ==> forall j :: 0 <= j < r.error ==> HasUsd(lists[j])
  {
    if |lists| == 0 then Success([])
    else
      match SelectUsd(lists[0])
      case None => Failure(0)
      case Some(first) =>
        match SelectAll(lists[1..])
        case Failure(k) => Failure(k + 1)
        case Success(rest) => Success([first] + rest)
  }

  /** Every record `SelectAll` returns is the first USD record of its list. */
  lemma SelectedAreFirstMatches(lists: seq<seq<CurrencyRecord>>, out: seq<CurrencyRecord>)
    requires SelectAll(lists) == Success(out)
    ensures |out| == |lists|
    ensures forall k :: 0 <= k < |lists| ==>
      FirstUsdIndex(lists[k]).Some? && out[k] == lists[k][FirstUsdIndex(lists[k]).value]
  {
    forall k | 0 <= k < |lists|
      ensures FirstUsdIndex(lists[k]).Some? && out[k] == lists[k][FirstUsdIndex(lists[k]).value]
    {
      SelectUsdIsFirstMatch(lists[k]);
    }
  }

  // ---------------------------------------------------------------- whole

  /** `parse_privat_jsons(raw_data)`, with `ast.literal_eval` supplied as `decode`. */
  function ParsePrivatJsons(raw: seq<RawResponse>, decode: Decoder): (r: Result<seq<CurrencyRecord>, ParseError>)
    // one output record per kept response, each the first USD record of that response's list
    ensures var kept := KeptPayloads(raw);
      r.Success? ==>
        && |r.value| == |kept|
        && forall k :: 0 <= k < |kept| ==>
             && IsUsd(r.value[k])
             && decode(kept[k]).Some?
             && FirstUsdIndex(decode(kept[k]).value).Some?
             && r.value[k] == decode(kept[k]).value[FirstUsdIndex(decode(kept[k]).value).value]
    // it succeeds exactly when every kept payload decodes to a list holding a USD record
    ensures var kept := KeptPayloads(raw);
      r.Success? <==> forall k :: 0 <= k < |kept| ==> decode(kept[k]).Some? && HasUsd(decode(kept[k]).value)
    // every payload is decoded before any USD record is selected
    ensures var kept := KeptPayloads(raw);
      r.Failure? && r.error.LiteralEvalError? ==>
        && r.error.position < |kept|
        && decode(kept[r.error.position]).None?
        && forall j :: 0 <= j < r.error.position ==> decode(kept[j]).Some?
    ensures var kept := KeptPayloads(raw);
      r.Failure? && r.error.NoUsdRecord? ==>
        && r.error.position < |kept|
        && (forall j :: 0 <= j < |kept| ==> decode(kept[j]).Some?)
        && !HasUsd(decode(kept[r.error.position]).value)
        && forall j :: 0 <= j < r.error.position ==> HasUsd(decode(kept[j]).value)
  {
    var kept := KeptPayloads(raw);
    match DecodeAll(kept, decode)
    case Failure(k) => Failure(LiteralEvalError(k))
    case Success(lists) =>
      match SelectAll(lists)
      case Failure(k) => Failure(NoUsdRecord(k))
      case Success(out) =>
        SelectedAreFirstMatches(lists, out);
        Success(out)
  }
}

=== FILE: pipeline.dfy ===
/** The parser feeding the formatter, as the bot chains them: what comes out
    when both endpoints answer, and what happens when one of them does not. */
module Pipeline {
  import opened Results
  import opened Records
  import opened Parser
  import opened Formatter
  import opened Text

  /** Both endpoints answered with status 200 and a list holding a USD record:
      the parser yields two records, retail first, business second. */
  lemma BothEndpointsAnswer(retail: RawResponse, business: RawResponse, decode: Decoder)
    requires Keep(retail) && Keep(business)
    requires decode(retail.result.value).Some? && HasUsd(decode(retail.result.value).value)
    requires decode(business.result.value).Some? && HasUsd(decode(business.result.value).value)
    ensures ParsePrivatJsons([retail, business], decode)
      == Success([SelectUsd(decode(retail.result.value).value).value,
                  SelectUsd(decode(business.result.value).value).value])
  {
    var raw := [retail, business];
    KeptPayloadsAllKept(raw);
    var kept := KeptPayloads(raw);
    var r := ParsePrivatJsons(raw, decode);
    assert r.Success?;
    forall k | 0 <= k < 2
      ensures r.value[k] == SelectUsd(decode(kept[k]).value).value
    {
      SelectUsdIsFirstMatch(decode(kept[k]).value);
    }
    assert kept[0] == retail.result.value && kept[1] == business.result.value;
    assert |r.value| == 2;
    assert r.value == [r.value[0], r.value[1]];
  }

  /** One endpoint failed (bad status or empty result): the parser silently
      yields a single record, and the formatter then raises IndexError on
      position 1 instead of producing a message. */
  lemma OneEndpointDropped(retail: RawResponse, business: RawResponse, decode: Decoder, textForImage: bool)
    requires Keep(retail) != Keep(business)
    requires var survivor := if Keep(retail) then retail else business;
      && decode(survivor.result.value).Some?
      && HasUsd(decode(survivor.result.value).value)
      && var usd := SelectUsd(decode(survivor.result.value).value).value;
         usd.buy.Some? && usd.sale.Some?
    ensures ParsePrivatJsons([retail, business], decode).Success?
    ensures |ParsePrivatJsons([retail, business], decode).value| == 1
    ensures CurrencyMessage(AList(ParsePrivatJsons([retail, business], decode).value), textForImage)
      == Failure(IndexOutOfRange(1))
  {
    var raw := [retail, business];
    var survivor := if Keep(retail) then retail else business;
    assert raw[1..] == [business];
    assert raw[1..][1..] == [];
    assert KeptPayloads(raw) == [survivor.result.value];
    var out := ParsePrivatJsons(raw, decode).value;
    SelectUsdIsFirstMatch(decode(survivor.result.value).value);
    assert out[0] == SelectUsd(decode(survivor.result.value).value).value;
  }

  /** The `result` payloads of the docstring example, one per endpoint. */
  const RetailPayload: string := "[{\"ccy\":\"USD\",\"base_ccy\":\"UAH\",\"buy\":\"26.85000\",\"sale\":\"27.25000\"}]"
  const BusinessPayload: string := "[{\"ccy\":\"USD\",\"base_ccy\":\"UAH\",\"buy\":\"26.90000\",\"sale\":\"27.24796\"}]"

  /** The seven lines the docstring rates produce. */
  lemma ExampleLines()
    ensures QuoteLines(Quote("26.85000", "27.25000", "26.90000", "27.24796")) == [
              "Retail:",
              "BUY USD: 26.85000 UAH",
              "SELL USD: 27.25000 UAH",
              "",
              "Business:",
              "BUY USD: 26.90000 UAH",
              "SELL USD: 27.24796 UAH"]
  {
    ExampleRetailLines();
    ExampleBusinessLines();
  }

  lemma ExampleRetailLines()
    ensures BuyLabel + "26.85000" + Unit == "BUY USD: 26.85000 UAH"
    ensures SellLabel + "27.25000" + Unit == "SELL USD: 27.25000 UAH"
  {
  }

  lemma ExampleBusinessLines()
    ensures BuyLabel + "26.90000" + Unit == "BUY USD: 26.90000 UAH"
    ensures SellLabel + "27.24796" + Unit == "SELL USD: 27.24796 UAH"
  {
  }

  /** The worked example of the docstrings in `lib/privat.py`, end to end in plain mode:
      the message's lines carry the four rates verbatim, retail before business. */
  lemma DocstringExample(decode: Decoder)
    requires decode(RetailPayload) == Some([CurrencyRecord(Some("USD"), Some("UAH"), Some("26.85000"), Some("27.25000"))])
    requires decode(BusinessPayload) == Some([CurrencyRecord(Some("USD"), Some("UAH"), Some("26.90000"), Some("27.24796"))])
    ensures var parsed := ParsePrivatJsons([RawResponse(Some(200), Some(RetailPayload)), RawResponse(Some(200), Some(BusinessPayload))], decode);
      && parsed.Success?
      && var message := CurrencyMessage(AList(parsed.value), false);
         && message.Success?
         && ReadLines(message.value) == [
              "Retail:",
              "BUY USD: 26.85000 UAH",
              "SELL USD: 27.25000 UAH",
              "",
              "Business:",
              "BUY USD: 26.90000 UAH",
              "SELL USD: 27.24796 UAH"]
  {
    var retail := RawResponse(Some(200), Some(RetailPayload));
    var business := RawResponse(Some(200), Some(BusinessPayload));
    assert IsUsd(decode(RetailPayload).value[0]);
    assert IsUsd(decode(BusinessPayload).value[0]);
    BothEndpointsAnswer(retail, business, decode);
    var out := ParsePrivatJsons([retail, business], decode).value;
    assert out[0] == decode(RetailPayload).value[0];
    assert out[1] == decode(BusinessPayload).value[0];
    var q := Quote("26.85000", "27.25000", "26.90000", "27.24796");
    var ls := QuoteLines(q);
    assert CurrencyMessage(AList(out), false) == Success(Terminated(ls, "\n"));
    ExampleLines();
    assert SingleLine(q);
    QuoteLinesSingleLine(q);
    ReadLinesTerminated(ls);
  }
}

=== FILE: records.dfy ===
/** The data shapes that flow between the fetcher, the parser and the formatter
    of the PrivatBank currency module. Every dictionary key the code reads is an
    `Option`, because the code reads some keys with `.get` (absent reads as
    `None`) and others with `[...]` (absent raises `KeyError`). */
module Records {
  import opened Results

  /** One currency quote as the bank publishes it:
      `{"ccy": ..., "base_ccy": ..., "buy": ..., "sale": ...}`.
      Rates stay strings; nothing here parses or rounds them. */
  datatype CurrencyRecord = CurrencyRecord(
    ccy: Option<string>,
    baseCcy: Option<string>,
    buy: Option<string>,
    sale: Option<string>)

  /** One fetched endpoint body: `{"status": ..., "result": ...}`, where `result`
      is itself the text of a list literal of currency dictionaries. */
  datatype RawResponse = RawResponse(status: Option<int>, result: Option<string>)

  /** The only currency the module extracts. */
  const USD: string := "USD"

  /** The HTTP status the parser accepts. */
  const StatusOk: int := 200

  /** `currency.get("ccy") == "USD"` */
  predicate IsUsd(c: CurrencyRecord) {
    c.ccy == Some(USD)
  }

  /** `row.get("result") and row.get("status") == 200`: the result must be
      present and truthy (a non-empty string) and the status exactly 200. */
  predicate Keep(r: RawResponse) {
    r.result.Some? && |r.result.value| > 0 && r.status == Some(StatusOk)
  }
}

=== FILE: results.dfy ===
/** `Option` stands for a value that may be missing, above all a dictionary
    entry: what a Python `.get` reads as `None`, or what `[...]` would raise
    `KeyError` on. `Result`
    stands for the outcome of a Python call: its value, or the exception it
    raised and did not catch. */
module Results {

  datatype Option<+T> = None | Some(value: T)

  /** The value of a call, or the exception it raised. The three members below
      let a chain of reads stop at the first one that raises, as in `ReadQuote`. */
  datatype Result<+R, +E> = Success(value: R) | Failure(error: E) {

    predicate IsFailure() {
      Failure?
    }

    function PropagateFailure<U>(): Result<U, E>
      requires Failure?
    {
      Failure(error)
    }

    function Extract(): R
      requires Success?
    {
      value
    }
  }
}

=== FILE: text.dfy ===
/** Line-level views of strings: joining lines with a terminator, widening every
    line break to a blank-line break, and reading lines back. The formatter's
    two templates are stated against these. */
module Text {
  import opened Results

  /** No line break inside `s`. */
  predicate NoNewline(s: string) {
    '\n' !in s
  }

  /** Every line followed by `sep`, concatenated. */
  function Terminated(lines: seq<string>, sep: string): string {
    if |lines| == 0 then "" else lines[0] + sep + Terminated(lines[1..], sep)
  }

  lemma TerminatedStep(lines: seq<string>, k: nat, sep: string)
    requires k < |lines|
    ensures Terminated(lines[k..], sep) == lines[k] + sep + Terminated(lines[k + 1..], sep)
  {
  }

  /** Regrouping seven concatenated pieces to the right. */
  lemma AppendRightNested(a: string, b: string, c: string, d: string, e: string, f: string, g: string)
    ensures a + b + c + d + e + f + g == a + (b + (c + (d + (e + (f + g)))))
  {
  }

  /** `s` with every `'\n'` replaced by `"\n\n"`. */
  function DoubleNewlines(s: string): (r: string)
    ensures |r| >= |s|
    ensures NoNewline(s) ==> r == s
  {
    if |s| == 0 then ""
    else (if s[0] == '\n' then "\n\n" else [s[0]]) + DoubleNewlines(s[1..])
  }

  lemma {:induction false} DoubleNewlinesAppend(a: string, b: string)
    ensures DoubleNewlines(a + b) == DoubleNewlines(a) + DoubleNewlines(b)
  {
    if |a| == 0 {
      assert a + b == b;
    } else {
      assert (a + b)[0] == a[0];
      assert (a + b)[1..] == a[1..] + b;
      DoubleNewlinesAppend(a[1..], b);
    }
  }

  /** Widening the breaks of a "\n"-terminated text gives the "\n\n"-terminated
      text of the same lines, provided no line holds a break of its own. */
  lemma {:induction false} DoubleNewlinesTerminated(lines: seq<string>)
    requires forall k :: 0 <= k < |lines| ==> NoNewline(lines[k])
    ensures DoubleNewlines(Terminated(lines, "\n")) == Terminated(lines, "\n\n")
  {
    if |lines| > 0 {
      var rest := Terminated(lines[1..], "\n");
      var line := lines[0];
      assert Terminated(lines, "\n") == line + ("\n" + rest);
      assert Terminated(lines, "\n\n") == line + ("\n\n" + Terminated(lines[1..], "\n\n"));
      DoubleNewlinesAppend(line, "\n" + rest);
      DoubleNewlinesAppend("\n", rest);
      assert DoubleNewlines("\n") == "\n\n";
      assert DoubleNewlines(line) == line;
      DoubleNewlinesTerminated(lines[1..]);
    }
  }

  /** Length of the first line of `s`: the position of the first `'\n'`, or `|s|`. */
  function LineEnd(s: string): (n: nat)
    ensures n <= |s|
    ensures NoNewline(s[..n])
    ensures n < |s| ==> s[n] == '\n'
  {
    if |s| == 0 || s[0] == '\n' then 0
    else
      var n := LineEnd(s[1..]);
      assert s[..n + 1] == [s[0]] + s[1..][..n];
      n + 1
  }

  /** Splits `s` into lines, each ended by `'\n'` or by the end of `s`. */
  function ReadLines(s: string): seq<string>
    decreases |s|
  {
    if |s| == 0 then []
    else
      var n := LineEnd(s);
      if n == |s| then [s] else [s[..n]] + ReadLines(s[n + 1..])
  }

  lemma {:induction false} LineEndOfLine(line: string, rest: string)
    requires NoNewline(line)
    ensures LineEnd(line + "\n" + rest) == |line|
  {
    var s := line + "\n" + rest;
    if |line| == 0 {
      assert s[0] == '\n';
    } else {
      assert s[0] == line[0];
      assert s[1..] == line[1..] + "\n" + rest;
      assert NoNewline(line[1..]) by {
        assert forall c :: c in line[1..] ==> c in line;
      }
      LineEndOfLine(line[1..], rest);
    }
  }

  /** Reading the lines of a "\n"-terminated text gives back exactly the
      lines it was built from. */
  lemma {:induction false} ReadLinesTerminated(lines: seq<string>)
    requires forall k :: 0 <= k < |lines| ==> NoNewline(lines[k])
    ensures ReadLines(Terminated(lines, "\n")) == lines
  {
    if |lines| > 0 {
      var rest := Terminated(lines[1..], "\n");
      var s := lines[0] + "\n" + rest;
      assert Terminated(lines, "\n") == s;
      LineEndOfLine(lines[0], rest);
      assert s[..|lines[0]|] == lines[0];
      assert s[|lines[0]| + 1..] == rest;
      ReadLinesTerminated(lines[1..]);
    }
  }

  /** The middle of `line` when it starts with `prefix` and ends with `suffix`. */
  function Unwrap(line: string, prefix: string, suffix: string): (r: Option<string>)
    ensures r.Some? ==> line == prefix + r.value + suffix
  {
    if |line| >= |prefix| + |suffix| && line[..|prefix|] == prefix && line[|line| - |suffix|..] == suffix then
      var v := line[|prefix|..|line| - |suffix|];
      assert line == line[..|prefix|] + v + line[|line| - |suffix|..];
      Some(v)
    else None
  }

  lemma UnwrapWrapped(prefix: string, v: string, suffix: string)
    ensures Unwrap(prefix + v + suffix, prefix, suffix) == Some(v)
  {
  }
}
